=== FILE: README.md ===
# Caparica Grand Prix: round-resolution engine in Dafny

This project models the core of a turn-based text racing simulator. A circular
track is a string of cells: `S` start, `+` boost, `-` drag, `!` oil, anything
else plain. A human player (index 0, symbol `P`) and up to nine AI opponents
(symbols `a` to `i`) race for a fixed number of laps. Every `accel` command
does four things:

- it sets the player's acceleration;
- each opponent chooses an acceleration by looking three cells ahead;
- one round moves every entity in index order, resolving collisions with the
  "yellow flag" backward slot search, applying cell effects and clamping speeds;
- lap counts are recomputed, and the first entity to complete the race wins
  and freezes the race.

The model has five modules:

- `JavaInt` (`java_int.dfy`) gives Java's truncating `/` and `%` for a
  positive divisor, and Java's 32-bit wrap-around of `int` addition.
- `Track` (`track.dfy`) holds the cell symbols and the entity alphabet. It also
  holds the pole-position search and the symbol-to-index lookup, both as loops
  proved against specification functions.
- `Rules` (`rules.dfy`) is the effect of every operation as a function on a
  `RaceState` value: positions, the speed table, laps, winner, win counter and
  yellow flag.
- `RoundFacts` (`round_facts.dfy`) proves what a round and `accel` promise over
  those functions. `RoundExample` works one round out on concrete values.
- `RaceEngine` (`race.dfy`) has the class `Race`. It holds the global arrays
  `positions`, `speed` (always ten slots) and `laps`, and the scalars `winner`,
  `win` and `yellowFlag`. Each source method becomes a method that updates them
  in place. The methods that play a part in a round or in `accel` are proved to
  leave `State()` equal to their `Rules` function applied to the old state. The
  constructor and `SetGrid` state the new arrays directly. `CheckPosStatus`,
  `ArtificialIn`, `Show` and `Status` change nothing and state their result
  against a `Rules` predicate or function.

Two things are inputs rather than behaviour:

- Configuration (track, lap count, maximum speed, number of opponents) is
  given to the constructor or passed as parameters, as the source passes it.
- The acceleration value of `accel` and the symbol of `status` are
  parameters. Reading them is console input.

Behaviour of the code worth knowing:

- Lap counts use Java's truncating division. The grid sits behind the start
  cell, so a floor quotient would give -1 there; the code gives 0
  (`RoundFacts.GridLapsAreZero`).
- Every speed starts at 1 (Main.java:52). So on `S+--!`, with the player
  alone, the first `accel 1` brings the player's speed to 2 and the player to
  cell 1. That cell is a boost, so the speed ends at 3
  (`RoundExample.LonePlayerFirstRound`).
- `speed[0] + val` in `pControlSpeed` is Java `int` addition. A huge `val`
  wraps the sum below zero, and the player stops instead of reaching top speed
  (`Rules.HugeAccelStops`). A boost or drag also changes the speed in 32-bit
  arithmetic.
- With a maximum speed of 0, the initial speed 1 is out of range until the
  first `accel` clamps it. So "speed always within [0, maxSpeed]" holds only
  after that first `accel` (`RoundFacts.AccelerateKeepsSpeedsWithin`).
- An entity that does not move while the flag is down still calls the slot
  search with a move of 0. If another entity shares its cell, that raises the
  yellow flag (`Rules.Move`, `Rules.Resolve`).

Preconditions taken from the code's own limits:

- a start cell exists. Without one, the pole search reads past the end of
  the track and `charAt` throws;
- at most nine opponents, because `speed` and the symbol table have ten slots;
- the pole is at least the number of opponents, so grid positions are not
  negative and every `%` indexes the track;
- the maximum speed is not negative for the round and `accel`. A negative
  maximum makes speeds, and then positions, negative, and Java's negative
  remainder then indexes outside the track.

## Model

| member | source | states |
|---|---|---|
| JavaInt.Div | Main.java:177 | the quotient is truncated toward zero: the remainder a - b*q lies in [0, b) for a non-negative dividend and in (-b, 0] for a negative one |
| JavaInt.Rem | Main.java:207 | Java's remainder equals Dafny's % and lies in [0, b) for a non-negative dividend, and lies in (-b, 0] for a negative one |
| JavaInt.Wrap32 | Main.java:137-144 | Java int addition: the result is a 32-bit int, and a sum already in range is kept |
| JavaInt.Wrap32IsCongruent | Main.java:137-144 | the wrapped value differs from the sum by a multiple of 2^32 |
| JavaInt.MaxPlusOneWraps | Main.java:137-144 | Integer.MAX_VALUE + 1 wraps to Integer.MIN_VALUE |
| JavaInt.RemAfterDiv | Main.java:207 | the remainder is what the truncated quotient leaves: a - b*Div(a, b) |
| JavaInt.SmallQuotientIsZero | Main.java:177 | a dividend strictly between -b and b has Java quotient 0, while the Euclidean quotient of a negative one is -1 |
| JavaInt.DivMonotone | Main.java:177 | truncating division never decreases when the dividend grows |
| Track.FindPolePos | Main.java:73-82 | the pole is i - 1 + L for the first index i holding 'S'; it lies in [L - 1, 2L - 2], and the cell after it (mod L) is the start cell |
| Track.PlayerIndex | Main.java:277-283 | the lookup is -1 exactly when the symbol is not among the first count symbols; otherwise it is an index holding that symbol |
| Track.PlayerIndexOfSymbol | Main.java:20 | the symbols are distinct, so looking up PLAYERS[i] gives back i |
| Track.ProcessPlayerID | Main.java:277-283 | the loop returns the lookup: -1 iff the symbol is not among P and the first numOpponents opponents, else the index whose symbol it is |
| Rules.PlayerClamp | Main.java:137-144 | for a non-negative maximum the player's new speed lies in [0, maxSpeed], and an in-range speed is kept |
| Rules.OppClamp | Main.java:151-156 | the opponents' clamp (which tests the maximum first) agrees with the player's for a non-negative maximum, lands in [0, maxSpeed] and keeps in-range speeds |
| Rules.ClampIsNearest | Main.java:151-156 | the clamped speed is the nearest speed in [0, maxSpeed] to the requested one, and clamping is idempotent |
| Rules.PlayerAccel | Main.java:137-144 | pControlSpeed changes only the player's speed, to the clamp of the 32-bit sum speed + val; it ends in [0, maxSpeed]: a sum that wraps or falls below zero gives 0, one above the maximum gives maxSpeed, and an in-range sum is kept exactly |
| Rules.HugeAccelStops | Main.java:137-144 | from speed 1, accel Integer.MAX_VALUE wraps the sum negative and stops the player |
| Rules.AiChoice | Main.java:100-117 | the AI choice is -1, 0 or 1, and applied to an in-range speed it keeps the speed in range |
| Rules.OpponentSpeed | Main.java:124-130 | (definition) opponent j's new speed: its own speed plus its AI choice, clamped by oppControlSpeed |
| Rules.UpdateOpponents | Main.java:124-130 | every opponent's new speed is its OpponentSpeed, computed from the state before the update, and ends in [0, maxSpeed]; positions, laps, the player's speed, the winner and the flag are unchanged |
| Rules.Occupied | Main.java:203-212 | (definition) some entity other than p stands on the cell slot denotes, with Java's remainder applied to both sides |
| Rules.BackSearch | Main.java:229-235 | from offset n <= move on, the search never moves the entity back and moves it at most move - n cells; past move it leaves the entity in place |
| Rules.BackSearchFindsLeastFree | Main.java:229-235 | the search moves the entity to slot - m for the least free offset m (it lands at positions[i] + move - m), or leaves it where it was when every offset up to move is taken |
| Rules.BackSearchStep | Main.java:229-235 | one iteration of the search: it stops at a free offset n, and otherwise goes on at n + 1 |
| Rules.Landing | Main.java:221-237 | the new position lies in [old, old + move], and a free target gives old + move |
| Rules.LandingOnOccupied | Main.java:221-237 | an occupied target sends the entity back by the least free offset behind it, or leaves it in place when none is free |
| Rules.Resolve | Main.java:221-237 | findEmptySlot changes only entity i's position, within [old, old + move], and the flag; a free target gives exactly old + move; the flag is 1 afterwards iff the target was occupied or it already was |
| Rules.Move | Main.java:252-261 | with the flag down the entity lands where findEmptySlot puts it for target old + speed: exactly there when that cell is free, and the flag rises iff it is taken; under the flag a moving entity does the same for target old + 1 and a stopped one changes nothing; always within [old, old + speed], other entities untouched; a raised flag stays raised |
| Rules.EntityTurn | Main.java:295-301 | one turn leaves every other entity as it was, ends with speed in [0, maxSpeed] and a forward move of at most the speed (the full speed when the flag is down and the target cell is free, at most one cell when the flag is up, which it then stays), sets laps from the position, and adds a win with this entity as winner iff its laps reach raceLaps |
| Rules.CellEffect | Main.java:185-194 | (definition) boost adds 1 and drag subtracts 1 in 32-bit arithmetic, oil gives 0, any other cell keeps the speed |
| Rules.ApplyCell | Main.java:185-194 | (definition) checkNewPositions: entity i's speed becomes CellEffect of the cell it stands on; nothing else changes |
| Rules.ClampSpeed | Main.java:151-156 | (definition) oppControlSpeed: entity i's speed becomes OppClamp of it; nothing else changes |
| Rules.CheckWinner | Main.java:163-168 | (definition) checkWinner: when entity i's laps reach raceLaps, win grows by 1 and winner becomes its symbol; otherwise the state is kept |
| Rules.LapsAt | Main.java:176-179 | (definition) the truncating quotient of the distance past the start cell, position - (pole + 1), by the track length |
| Rules.CountLaps | Main.java:176-179 | (definition) checkLapsComplete: entity i's laps become LapsAt of its position, then CheckWinner |
| Rules.RoundUpTo | Main.java:295-302 | handling entities in order keeps every position and speed non-negative |
| Rules.Round | Main.java:292-303 | a round keeps every position and speed non-negative |
| Rules.Accelerate | Main.java:338-353 | with a winner, accel changes nothing; otherwise the state stays well formed |
| Rules.Painted | Main.java:377-380 | (definition) the cell's character after entities 0..k-1 are drawn in order over the track |
| Rules.PaintedIsLastOccupant | Main.java:377-380 | a drawn cell shows the symbol of the highest-numbered entity on that cell, or the track cell if none stands there |
| Rules.Status | Main.java:390-399 | corrected status: race-ended iff the race has a winner and the symbol is the winner's; not-found iff otherwise the symbol is unknown; position iff otherwise the symbol is known, with the cell and laps of the entity with that symbol; never a win report |
| Rules.StatusAsWritten | Main.java:390-399 | status as written: race-ended iff the symbol equals winner, whether or not anyone has won; not-found iff otherwise the symbol is unknown; never a win report |
| Rules.StatusAsWrittenDiffersOnlyBeforeAWin | Main.java:390-399 | the written and the corrected status give different reports exactly when nobody has won and the symbol is the one winner still holds ('0') |
| Rules.StatusZeroBeforeAnyWinner | Main.java:390-399 | before anyone has won (winner still '0'), status '0' reports as written that '0' won the race, whereas the corrected status reports that no such entity exists |
| RoundFacts.RoundStep | Main.java:295-302 | one loop step: entity k's turn is taken iff the win counter is still 0, else the state is kept |
| RoundFacts.TurnTouchesOnlyItsEntity | Main.java:295-302 | the turn of entity n leaves every other entity's position, speed and laps unchanged |
| RoundFacts.TurnsTouchOnlyTheirEntity | Main.java:295-302 | the turns of entities k..m-1 leave every other entity's position, speed and laps unchanged |
| RoundFacts.TurnOfEntity | Main.java:295-302 | each entity's turn starts from its pre-round state and its result is what the round ends with |
| RoundFacts.RoundMovesEachEntityForward | Main.java:292-303 | in a round every entity's position grows by between 0 and its speed |
| RoundFacts.PlayerMovesFullyToFreeTarget | Main.java:252-261 | in a round with no winner yet, the player moves first with the flag lowered, so a free target cell gives the player the full move of its speed |
| RoundFacts.RoundClampsHandledEntities | Main.java:292-303 | every entity handled in the round ends it with speed in [0, maxSpeed]; an entity skipped after a win keeps its position, speed and laps |
| RoundFacts.RoundKeepsSpeedsWithin | Main.java:292-303 | speeds within [0, maxSpeed] before a round are within it after |
| RoundFacts.FrozenOnceWon | Main.java:296 | once the win counter is non-zero the rest of the round changes nothing |
| RoundFacts.TurnKeepsFlag | Main.java:221-237 | a yellow flag raised before an entity's turn is still raised after it, since findEmptySlot only ever sets it to 1 |
| RoundFacts.FlagStaysRaised | Main.java:292-303 | once raised during a round, the yellow flag stays raised for the rest of that round (only processRound lowers it, at its start) |
| RoundFacts.CrawlUnderFlag | Main.java:252-261 | once the turn of entity w has raised the flag, every later entity advances at most one cell in that round |
| RoundFacts.FirstFinisherWins | Main.java:163-168 | from no winner the counter becomes at most 1; when it is 1, there is an entity w whose turn raised it from 0, w is the winner, its laps reached raceLaps, and nothing changed after its turn |
| RoundFacts.AfterWinnerUntouched | Main.java:295-302 | an entity after the one whose turn made a winner keeps its pre-round state |
| RoundFacts.AllAfterWinnerUntouched | Main.java:295-302 | every entity after the one whose turn made a winner keeps its pre-round state |
| RoundFacts.RoundHasAtMostOneWinner | Main.java:292-303 | a round started without a winner ends with at most one; the entity whose symbol is the winner reached raceLaps, and every entity after it kept its state |
| RoundFacts.EntityLapsAfterRound | Main.java:176-179 | an entity's lap count after the round agrees with its position and is at least its lap count before |
| RoundFacts.LapsAtMonotone | Main.java:176-179 | the lap count computed from a position never decreases as the position grows |
| RoundFacts.RoundLapsNonDecreasing | Main.java:176-179 | when laps agree with positions, a round keeps them in agreement and no lap count decreases |
| RoundFacts.AccelerateKeepsSpeedsWithin | Main.java:338-353 | after accel every entity's speed is within [0, maxSpeed] |
| RoundFacts.AccelerateNeverGoesBack | Main.java:338-353 | across accel no entity moves backward and no lap count decreases |
| RoundFacts.GridLapsAreZero | Main.java:89-92 | on a grid shorter than the track every entity starts at lap 0 under truncating division (a Euclidean quotient would say -1) |
| RoundFacts.LandedCellIsFree | Main.java:221-237 | the cell findEmptySlot lands on is free of other entities, except in the fallback where every cell from the target back to the entity was taken and it stayed put |
| RoundExample.LonePlayerFirstRound | Main.java:52 | a lone player on "S+--!" with initial speed 1 goes from 4 to 6 on accel 1, ends with speed 3 and 0 laps, and nobody wins |
| RaceEngine.Race.constructor | Main.java:47-57 | initState: positions and laps are 0, all ten speeds are 1, winner '0', win and flag 0 |
| RaceEngine.Race.SetGrid | Main.java:89-92 | entity j is placed at pole - j |
| RaceEngine.Race.ArtificialIn | Main.java:100-117 | returns 1 iff a boost lies 1-3 cells ahead and speed < maxSpeed; else -1 iff oil lies 1-3 cells ahead and speed > 0; else 0 |
| RaceEngine.Race.UpdateOpponentSpeed | Main.java:124-130 | the new state is UpdateOpponents of the old one |
| RaceEngine.Race.PControlSpeed | Main.java:137-144 | the player's speed becomes the clamp of the 32-bit sum speed + val, as PlayerAccel says; nothing else changes |
| RaceEngine.Race.OppControlSpeed | Main.java:151-156 | entity i's speed is clamped into [0, maxSpeed], an in-range speed is kept, and no other entity changes |
| RaceEngine.Race.CheckWinner | Main.java:163-168 | win grows by one and winner becomes PLAYERS[i] iff laps[i] >= raceLaps; otherwise nothing changes |
| RaceEngine.Race.CheckLapsComplete | Main.java:176-179 | laps[i] becomes the truncating quotient (positions[i] - (pole + 1)) / L, followed by checkWinner |
| RaceEngine.Race.CheckNewPositions | Main.java:185-194 | boost adds 1 to the speed and drag subtracts 1, both in 32-bit arithmetic; oil sets it to 0; other cells keep it |
| RaceEngine.Race.CheckPosStatus | Main.java:203-212 | returns 1 iff some entity other than playerIndex stands on the cell slot denotes (mod L), else 0 |
| RaceEngine.Race.FindEmptySlot | Main.java:221-237 | only positions[i] and the flag change; the position moves into [old, old + move] as Resolve says; the flag is raised iff the target was occupied |
| RaceEngine.Race.CheckYellowFlag | Main.java:243-245 | (definition) true iff the yellow flag is down |
| RaceEngine.Race.MovePlayers | Main.java:243-261 | full move when the flag is down; a move of 1 under the flag only if the speed is positive (checkYellowFlag is the predicate CheckYellowFlag) |
| RaceEngine.Race.ProcessRound | Main.java:292-303 | the flag is lowered, then entities 0..N are handled in order while nobody has won: the new state is Round of the old |
| RaceEngine.Race.Accel | Main.java:338-353 | with a winner nothing changes and the race-ended report is chosen; otherwise the speeds are updated, a round runs, and the report is the win or the player's cell and laps |
| RaceEngine.Race.Show | Main.java:377-383 | each drawn cell is the track cell overwritten by the highest-numbered entity on it; ended iff win != 0 |
| RaceEngine.Race.Status | Main.java:390-399 | the corrected status report: race-ended only for the actual winner, not-found for unknown symbols, else the entity's cell and laps |
| RaceEngine.SetUpRace | Main.java:313-317 | after initState, the pole is the first start index - 1 + L and entity j starts at pole - j with speed 1 and 0 laps |

## Findings

| source | as written | input that shows it | evidently intended | confidence | as-written member | corrected member |
|---|---|---|---|---|---|---|
| Main.java:393-394 | `status` (`Rules.StatusAsWritten`) compares the symbol with `winner` even when nobody has won, and `winner` starts as '0' (Main.java:53); `Rules.StatusZeroBeforeAnyWinner` exhibits the input and `Rules.StatusAsWrittenDiffersOnlyBeforeAWin` shows it is the only case where the two reports differ | `status 0` before the race ends reports "Race ended: 0 won the race!" | report the race as ended only when `win != 0`; `0` is then an unknown symbol | high (not executed) | Rules.StatusAsWritten | Rules.Status |

## Left out

- Console input: `main`, `readIntLn` and the `Scanner` reads inside `accel` and `status`. The values they read are parameters.
- The command loop: `processCommand`, `readCommand` and `quitVal`. These only dispatch on the command word.
- Output formatting: the `printf`/`println` text in `accel`, `status`, `quit`, `outputTrack` and `outputRaceStatus`. `Race.Accel` and `Race.Status` return which report is chosen, as a `Message`. `Race.Show` returns the drawn cells and whether the race ended.
- `quit`: only prints one of two messages and ends the loop.
- `writeTrack` and `cloneTrack`: the track is an immutable `seq<char>` fixed at construction. `Show` builds its drawing in a local array instead of the global `playersInTrack`.
- Malformed configuration: a track without a start cell (an exception), more than nine opponents, a pole smaller than the number of opponents, and a negative maximum speed. Each is a precondition, not a modelled crash.
- Rules.Accelerate: its own contract states only the freeze and well-formedness. Its speed bounds and monotonicity are in `RoundFacts.AccelerateKeepsSpeedsWithin` and `RoundFacts.AccelerateNeverGoesBack`.
- Rules.Round: its own contract states only that positions and speeds stay non-negative. The rest is in the `RoundFacts` lemmas.
- Rules.Move: positions are unbounded integers. Java's `positions[i] += move` and `positions[i] += move - n` (Main.java:225, 231) and the target sum `positions[i] + speed[i]` (Main.java:254) would wrap past `Integer.MAX_VALUE`, after about 2^31 / maxSpeed rounds; the model's positions keep growing. The same holds for `RaceEngine.Race.MovePlayers` and `RaceEngine.Race.FindEmptySlot`.
- RaceEngine.Race.MovePlayers: does not model the wrap of `positions[i] + speed[i]` past `Integer.MAX_VALUE`, as for `Rules.Move`.
- The 32-bit range of the configuration: the lap count, the maximum speed and the pole are unbounded integers, not Java `int`s. Only the additions that can wrap for in-range speeds are wrapped: `pControlSpeed`'s sum and a boost or drag.
- Lap counts are not proved non-negative in general. With more entities than track cells minus one, an entity on the grid that never moves has lap -1 under the code's own formula. `RoundFacts.GridLapsAreZero` covers the usual case.

=== FILE: java_int.dfy ===
/** Java's integer division and remainder for a positive divisor.
    Java truncates the quotient toward zero, so the remainder takes the sign
    of the dividend; Dafny's own `/` and `%` are Euclidean and differ from
    Java's exactly when the dividend is negative. */
module JavaInt {

  /** Java's `a / b` for `b > 0`: the quotient truncated toward zero. */
  function Div(a: int, b: int): (q: int)
    requires b > 0
    ensures a >= 0 ==> 0 <= a - b * q < b
    ensures a < 0 ==> -b < a - b * q <= 0
    ensures a >= 0 ==> q == a / b
  {
    if a >= 0 then a / b else -((-a) / b)
  }

  /** Java's `a % b` for `b > 0`: what is left after the truncated quotient. */
  function Rem(a: int, b: int): (r: int)
    requires b > 0
    ensures a >= 0 ==> r == a % b && 0 <= r < b
    ensures a < 0 ==> -b < r <= 0
  {
    if a >= 0 then a % b else -((-a) % b)
  }

  const INT_MIN: int := -0x8000_0000
  const INT_MAX: int := 0x7FFF_FFFF

  /** Java's `int` addition: the mathematical sum reduced to 32 bits in two's
      complement, so a sum past `Integer.MAX_VALUE` comes out negative. */
  function Wrap32(x: int): (r: int)
    ensures INT_MIN <= r <= INT_MAX
    ensures INT_MIN <= x <= INT_MAX ==> r == x
  {
    (x - INT_MIN) % 0x1_0000_0000 + INT_MIN
  }

  /** The wrapped value differs from the sum by a whole number of 2^32 turns. */
  lemma Wrap32IsCongruent(x: int)
    ensures (x - Wrap32(x)) % 0x1_0000_0000 == 0
  {
  }

  /** One past the largest `int` is the smallest. */
  lemma MaxPlusOneWraps()
    ensures Wrap32(INT_MAX + 1) == INT_MIN
  {
  }

  /** The remainder is what the truncated quotient leaves: a == b * Div(a, b) + Rem(a, b). */
  lemma RemAfterDiv(a: int, b: int)
    requires b > 0
    ensures Rem(a, b) == a - b * Div(a, b)
  {
  }

  /** A dividend strictly between -b and b has quotient 0 in Java, whereas
      Dafny's Euclidean quotient of a negative one is -1. */
  lemma SmallQuotientIsZero(a: int, b: int)
    requires b > 0 && -b < a < b
    ensures Div(a, b) == 0
    ensures a < 0 ==> a / b == -1
  {
    var q := Div(a, b);
    assert -b < b * q < b;
    ProductWindow(b, q, 0);
    if a < 0 {
      var e := a / b;
      assert a == b * e + a % b && 0 <= a % b < b;
      assert b * e < b * -1 + b && b * e > b * -1 - b;
      ProductWindow(b, e, -1);
    }
  }

  /** Truncating division is monotone in the dividend. */
  lemma DivMonotone(a: int, c: int, b: int)
    requires b > 0 && a <= c
    ensures Div(a, b) <= Div(c, b)
  {
    var q, p := Div(a, b), Div(c, b);
    if a >= 0 || c < 0 {
      // Both windows lie on the same side of zero, so b * q <= a <= c < b * p + b.
      assert b * q < b * p + b;
      ProductBelow(b, q, p);
    } else {
      // A negative dividend has a non-positive quotient, a non-negative one a non-negative quotient.
      ProductWindow(b, q, 0);
      ProductWindow(b, p, 0);
    }
  }

  /** One full turn of the track lands on the same cell: Rem(k + b, b) == k. */
  lemma RemShift(k: int, b: int)
    requires 0 <= k < b
    ensures Rem(k + b, b) == k
  {
    assert k + b == b * 1 + k;
    assert Div(k + b, b) == 1 by {
      ProductWindow(b, Div(k + b, b), 1);
    }
  }

  /** If b * x < b * y + b then x <= y. */
  lemma ProductBelow(b: int, x: int, y: int)
    requires b > 0 && b * x < b * y + b
    ensures x <= y
  {
    var d := x - y - 1;
    assert b * d == b * x - b * y - b;
    assert d >= 0 ==> b * d >= 0;
  }

  /** If b * x lies strictly within b of b * y on both sides, then x == y;
      if it lies below b * y + b, then x <= y, and above b * y - b, x >= y. */
  lemma ProductWindow(b: int, x: int, y: int)
    requires b > 0
    ensures b * x < b * y + b ==> x <= y
    ensures b * x > b * y - b ==> x >= y
  {
    if b * x < b * y + b {
      ProductBelow(b, x, y);
    }
    if b * x > b * y - b {
      ProductBelow(b, y, x);
    }
  }
}

=== FILE: race.dfy ===
/** The simulator's global race state as an object: the per-entity arrays
    and the scalars that its methods update in place. The methods that take
    part in a round or in `accel` are proved to have exactly the effect their
    Rules function describes; the constructor, `SetGrid` and `SetUpRace` state
    the arrays they set directly, and the queries state their result against
    a Rules predicate or function. */
module RaceEngine {
  import opened JavaInt
  import opened Track
  import opened Rules

  class Race {
    /** The track layout (the source keeps a character array it never changes). */
    const track: seq<char>
    const numOpponents: nat
    const positions: array<int>
    /** Ten slots, one per symbol, whatever the number of opponents. */
    const speed: array<int>
    const laps: array<int>
    var winner: char
    var win: int
    var yellowFlag: int

    /** The abstract value of the object. */
    ghost function State(): RaceState
      reads this, positions, speed, laps
    {
      RaceState(positions[..], speed[..], laps[..], winner, win, yellowFlag)
    }

    ghost predicate Valid()
      reads this, positions, speed, laps
    {
      |track| > 0 && positions.Length == numOpponents + 1 && State().Shaped()
      && positions != speed && positions != laps && speed != laps
    }

    /** `initState`: zeroed positions and laps, every speed 1, no winner. */
    constructor (track: seq<char>, numOpponents: nat)
      requires |track| > 0 && numOpponents < |PLAYERS|
      ensures Valid() && fresh(positions) && fresh(speed) && fresh(laps)
      ensures this.track == track && this.numOpponents == numOpponents
      ensures forall j :: 0 <= j <= numOpponents ==> positions[j] == 0 && laps[j] == 0
      ensures forall j :: 0 <= j < speed.Length ==> speed[j] == 1
      ensures winner == '0' && win == 0 && yellowFlag == 0
    {
      this.track := track;
      this.numOpponents := numOpponents;
      positions := new int[numOpponents + 1](_ => 0);
      laps := new int[numOpponents + 1](_ => 0);
      speed := new int[|PLAYERS|](_ => 1);
      winner := '0';
      win := 0;
      yellowFlag := 0;
    }

    /** `setGrid`: entity i starts i cells behind the pole. */
    method SetGrid(pole: int)
      requires Valid() && pole >= numOpponents
      modifies positions
      ensures Valid()
      ensures forall j :: 0 <= j <= numOpponents ==> positions[j] == pole - j
    {
      for i := 0 to numOpponents + 1
        invariant forall j :: 0 <= j < i ==> positions[j] == pole - j
        invariant forall j :: i <= j <= numOpponents ==> positions[j] == old(positions[j])
        invariant Valid()
      {
        positions[i] := pole - i;
      }
    }

    /** `artificialIn`: the opponent's acceleration choice from the three cells ahead. */
    method ArtificialIn(maxSpeed: int, i: nat) returns (valAccel: int)
      requires Valid() && i <= numOpponents
      ensures valAccel == AiChoice(track, positions[i], speed[i], maxSpeed)
      ensures valAccel == 1 <==> SeenAhead(track, positions[i], BOOST) && speed[i] < maxSpeed
      ensures valAccel == -1 <==>
        !(SeenAhead(track, positions[i], BOOST) && speed[i] < maxSpeed)
        && SeenAhead(track, positions[i], OIL) && speed[i] > 0
    {
      var pos := positions[i];
      valAccel := 0;
      var n := 1;
      // Both do-while loops of the source test true first, so while loops match them.
      while n <= 3 && valAccel != 1
        invariant 1 <= n <= 4 && (valAccel == 0 || valAccel == 1)
        invariant valAccel == 1 <==>
          speed[i] < maxSpeed && exists d :: 1 <= d < n && CellAhead(track, pos, d) == BOOST
        invariant valAccel == 0 && n == 4 ==> !(SeenAhead(track, pos, BOOST) && speed[i] < maxSpeed)
      {
        if CellAhead(track, pos, n) == BOOST && speed[i] < maxSpeed {
          valAccel := 1;
        }
        n := n + 1;
      }
      n := 1;
      if valAccel == 0 {
        while n <= 3 && valAccel != -1
          invariant 1 <= n <= 4 && (valAccel == 0 || valAccel == -1)
          invariant valAccel == -1 <==>
            speed[i] > 0 && exists d :: 1 <= d < n && CellAhead(track, pos, d) == OIL
          invariant valAccel == 0 && n == 4 ==> !(SeenAhead(track, pos, OIL) && speed[i] > 0)
        {
          if CellAhead(track, pos, n) == OIL && speed[i] > 0 {
            valAccel := -1;
          }
          n := n + 1;
        }
      }
    }

    /** `updateOpponentSpeed`: each opponent applies its choice and is clamped. */
    method UpdateOpponentSpeed(maxSpeed: int)
      requires Valid()
      modifies speed
      ensures Valid()
      ensures State() == UpdateOpponents(old(State()), track, maxSpeed)
    {
      ghost var s := State();
      var i := 1;
      while i <= numOpponents
        invariant 1 <= i <= numOpponents + 1 && Valid()
        invariant positions[..] == s.positions && laps[..] == s.laps
        invariant forall j :: 0 <= j < speed.Length ==>
          speed[j] == if 1 <= j < i then OpponentSpeed(s, track, maxSpeed, j) else s.speed[j]
      {
        var val := ArtificialIn(maxSpeed, i);
        speed[i] := speed[i] + val;
        OppControlSpeed(i, maxSpeed);
        i := i + 1;
      }
      assert speed[..] == UpdateOpponents(s, track, maxSpeed).speed;
    }

    /** `pControlSpeed`: the player's speed changes by `val` in 32-bit arithmetic, clamped to [0, maxSpeed]. */
    method PControlSpeed(maxSpeed: int, val: int)
      requires Valid()
      modifies speed
      ensures Valid()
      ensures State() == PlayerAccel(old(State()), val, maxSpeed)
      ensures maxSpeed >= 0 ==> 0 <= speed[0] <= maxSpeed
      ensures 0 <= old(speed[0]) + val <= maxSpeed <= INT_MAX ==> speed[0] == old(speed[0]) + val
    {
      var sum := Wrap32(speed[0] + val);  // Java's int addition
      if sum < 0 {
        speed[0] := 0;
      } else if sum > maxSpeed {
        speed[0] := maxSpeed;
      } else {
        speed[0] := sum;
      }
    }

    /** `oppControlSpeed`: entity i's speed is brought into [0, maxSpeed]. */
    method OppControlSpeed(i: nat, maxSpeed: int)
      requires Valid() && i <= numOpponents
      modifies speed
      ensures Valid()
      ensures State() == ClampSpeed(old(State()), i, maxSpeed)
      ensures maxSpeed >= 0 ==> 0 <= speed[i] <= maxSpeed
      ensures 0 <= old(speed[i]) <= maxSpeed ==> speed[i] == old(speed[i])
    {
      if speed[i] > maxSpeed {
        speed[i] := maxSpeed;
      } else if speed[i] < 0 {
        speed[i] := 0;
      }
    }

    /** `checkWinner`: entity i wins once its laps reach the race length. */
    method CheckWinner(i: nat, raceLaps: int)
      requires Valid() && i <= numOpponents
      modifies this
      ensures Valid()
      ensures State() == Rules.CheckWinner(old(State()), i, raceLaps)
      ensures laps[i] >= raceLaps <==> win == old(win) + 1
      ensures laps[i] >= raceLaps ==> winner == PLAYERS[i]
      ensures laps[i] < raceLaps ==> winner == old(winner)
    {
      if laps[i] >= raceLaps {
        win := win + 1;
        winner := PLAYERS[i];
      }
    }

    /** `checkLapsComplete`: laps from the absolute position, truncating as Java does. */
    method CheckLapsComplete(i: nat, raceLaps: int, pole: int)
      requires Valid() && i <= numOpponents
      modifies this, laps
      ensures Valid()
      ensures State() == CountLaps(old(State()), |track|, i, raceLaps, pole)
      ensures laps[i] == Div(positions[i] - (pole + 1), |track|)
    {
      laps[i] := Div(positions[i] - (pole + 1), |track|);
      CheckWinner(i, raceLaps);
    }

    /** `checkNewPositions`: the effect of the cell entity i stands on. */
    method CheckNewPositions(i: nat)
      requires Valid() && i <= numOpponents
      modifies speed
      ensures Valid()
      ensures State() == ApplyCell(old(State()), track, i)
      ensures track[positions[i] % |track|] == BOOST ==> speed[i] == Wrap32(old(speed[i]) + 1)
      ensures track[positions[i] % |track|] == DRAG ==> speed[i] == Wrap32(old(speed[i]) - 1)
      ensures track[positions[i] % |track|] == OIL ==> speed[i] == 0
    {
      var cell := track[Rem(positions[i], |track|)];
      if cell == BOOST {
        speed[i] := Wrap32(speed[i] + 1);
      } else if cell == DRAG {
        speed[i] := Wrap32(speed[i] - 1);
      } else if cell == OIL {
        speed[i] := 0;
      }
    }

    /** `checkPosStatus`: 1 when an entity other than `playerIndex` stands on `slot`'s cell. */
    method CheckPosStatus(slot: int, playerIndex: int) returns (val: int)
      requires Valid()
      ensures val == 1 <==> Occupied(positions[..], |track|, slot, playerIndex)
      ensures val == 0 || val == 1
    {
      var L := |track|;
      val := 0;
      var i := 0;
      // The source's do-while: its first test is true.
      while i <= numOpponents && val != 1
        invariant 0 <= i <= numOpponents + 1 && (val == 0 || val == 1)
        invariant val == 1 <==>
          exists j :: 0 <= j < i && j != playerIndex && Rem(positions[j], L) == Rem(slot, L)
      {
        if i != playerIndex && Rem(positions[i], L) == Rem(slot, L) {
          val := 1;
        }
        i := i + 1;
      }
    }

    /** `findEmptySlot`: move entity i to the free cell nearest to `slot`, at
        most `move` cells back, raising the flag if `slot` was taken. */
    method FindEmptySlot(i: nat, slot: int, move: int)
      requires Valid() && i <= numOpponents && move >= 0
      modifies this, positions
      ensures Valid()
      ensures State() == Resolve(old(State()), |track|, i, slot, move)
      ensures old(positions[i]) <= positions[i] <= old(positions[i]) + move
      ensures yellowFlag == if Occupied(old(positions[..]), |track|, slot, i) then 1 else old(yellowFlag)
    {
      ghost var s := State();
      var L := |track|;
      ghost var target := Landing(s.positions, L, i, slot, move);
      var foundPos := 0;
      var n := 1;
      var status := CheckPosStatus(slot, i);
      if status == 0 {
        positions[i] := positions[i] + move;
      } else {
        assert target == BackSearch(s.positions, L, i, slot, move, 1);
        yellowFlag := 1;
        while foundPos == 0 && n <= move
          modifies positions
          invariant 1 <= n <= move + 1 && Valid()
          invariant foundPos == 0 ==>
            positions[..] == s.positions && BackSearch(s.positions, L, i, slot, move, n) == target
          invariant foundPos != 0 ==> positions[..] == s.positions[i := target]
        {
          var st := CheckPosStatus(slot - n, i);
          BackSearchStep(s.positions, L, i, slot, move, n);
          if st == 0 {
            assert FreeBehind(s.positions, L, i, slot, n);
            positions[i] := positions[i] + move - n;
            assert positions[..] == s.positions[i := target];
            foundPos := foundPos + 1;
          } else {
            assert !FreeBehind(s.positions, L, i, slot, n);
          }
          n := n + 1;
        }
      }
      assert positions[..] == s.positions[i := target];
    }

    /** `checkYellowFlag`: true while the flag is down. */
    predicate CheckYellowFlag()
      reads this
    {
      yellowFlag == 0
    }

    /** `movePlayers`: a full move with the flag down, one cell under it. */
    method MovePlayers(i: nat)
      requires Valid() && i <= numOpponents && speed[i] >= 0
      modifies this, positions
      ensures Valid()
      ensures State() == Move(old(State()), |track|, i)
    {
      if CheckYellowFlag() {
        FindEmptySlot(i, positions[i] + speed[i], speed[i]);
      } else {
        if speed[i] > 0 {
          FindEmptySlot(i, positions[i] + 1, 1);
        }
      }
    }

    /** `processRound`: lower the flag, then handle entities 0 .. N in order
        for as long as nobody has won. */
    method ProcessRound(raceLaps: int, pole: int, maxSpeed: int)
      requires Valid() && maxSpeed >= 0 && State().SpeedsNonNegative()
      modifies this, positions, speed, laps
      ensures Valid()
      ensures State() == Round(old(State()), Setup(track, maxSpeed, raceLaps, pole))
    {
      ghost var cfg := Setup(track, maxSpeed, raceLaps, pole);
      yellowFlag := 0;
      ghost var start := State();
      var i := 0;
      while i <= numOpponents
        invariant 0 <= i <= numOpponents + 1 && Valid()
        invariant State() == RoundUpTo(start, cfg, i)
      {
        if win == 0 {
          ghost var t := State();
          MovePlayers(i);
          CheckNewPositions(i);
          OppControlSpeed(i, maxSpeed);
          CheckLapsComplete(i, raceLaps, pole);
          assert State() == EntityTurn(t, cfg, i);
        }
        i := i + 1;
      }
    }

    /** The state part of `accel`: once the race has a winner nothing changes;
        otherwise the speeds are updated and one round is run. */
    method Accel(val: int, maxSpeed: int, raceLaps: int, pole: int) returns (msg: Message)
      requires Valid() && maxSpeed >= 0
      modifies this, positions, speed, laps
      ensures Valid()
      ensures State() == Accelerate(old(State()), Setup(track, maxSpeed, raceLaps, pole), val)
      ensures old(win) != 0 ==> msg == RaceEnded(old(winner)) && State() == old(State())
      ensures old(win) == 0 && win != 0 ==> msg == Won(winner)
      ensures old(win) == 0 && win == 0 ==>
        msg == Position(PLAYERS[0], positions[0] % |track|, laps[0])
    {
      if win != 0 {
        msg := RaceEnded(winner);
      } else {
        PControlSpeed(maxSpeed, val);
        UpdateOpponentSpeed(maxSpeed);
        ProcessRound(raceLaps, pole, maxSpeed);
        if win != 0 {
          msg := Won(winner);
        } else {
          msg := Position(PLAYERS[0], Rem(positions[0], |track|), laps[0]);
        }
      }
    }

    /** The drawing in `show`: the track with each entity's symbol written over
        its cell, later entities over earlier ones; and whether the race ended. */
    method Show() returns (cells: seq<char>, ended: bool)
      requires Valid()
      ensures |cells| == |track|
      ensures forall c :: 0 <= c < |track| ==>
        cells[c] == Painted(track, positions[..], numOpponents + 1, c)
      ensures ended <==> win != 0
    {
      var L := |track|;
      var playersInTrack := new char[L];
      // cloneTrack
      for c := 0 to L
        invariant forall k :: 0 <= k < c ==> playersInTrack[k] == track[k]
      {
        playersInTrack[c] := track[c];
      }
      for i := 0 to numOpponents + 1
        invariant forall c :: 0 <= c < L ==> playersInTrack[c] == Painted(track, positions[..], i, c)
      {
        playersInTrack[Rem(positions[i], L)] := PLAYERS[i];
      }
      cells := playersInTrack[..];
      ended := win != 0;
    }

    /** The report `status` chooses for a symbol (corrected: see Rules.Status). */
    method Status(playerID: char) returns (msg: Message)
      requires Valid()
      ensures msg == Rules.Status(State(), |track|, playerID)
      ensures msg.RaceEnded? <==> win != 0 && playerID == winner
      ensures msg.NotFound? ==> playerID !in PLAYERS[..numOpponents + 1]
    {
      var pNum := ProcessPlayerID(playerID, numOpponents);
      if win != 0 && playerID == winner {
        msg := RaceEnded(playerID);
      } else if pNum == -1 {
        msg := NotFound(playerID);
      } else {
        msg := Position(playerID, Rem(positions[pNum], |track|), laps[pNum]);
      }
    }
  }

  /** The setup part of `processRace` after `initState`: the pole is found and
      the grid laid out behind it. */
  method SetUpRace(track: seq<char>, numOpponents: nat) returns (race: Race, pole: int)
    requires START in track && numOpponents < |PLAYERS|
    requires FirstIndex(track, START) - 1 + |track| >= numOpponents
    ensures fresh(race) && race.Valid() && race.track == track && race.numOpponents == numOpponents
    ensures pole == FirstIndex(track, START) - 1 + |track|
    ensures forall j :: 0 <= j <= numOpponents ==> race.positions[j] == pole - j && race.laps[j] == 0
    ensures forall j :: 0 <= j < race.speed.Length ==> race.speed[j] == 1
    ensures race.winner == '0' && race.win == 0 && race.yellowFlag == 0
  {
    race := new Race(track, numOpponents);
    pole := FindPolePos(track);
    race.SetGrid(pole);
  }
}

=== FILE: round_facts.dfy ===
/** What a round and the `accel` command promise, proved about the Rules
    functions: each turn touches only its own entity, entities only move
    forward and by at most their speed, handled entities end within the speed
    limit, the first entity to finish is the only winner and freezes the rest
    of the race, and lap counts never decrease. */
module RoundFacts {
  import opened JavaInt
  import opened Track
  import opened Rules

  /** Entity `j` has the same position, speed and lap count in `a` and `b`. */
  ghost predicate SameEntity(a: RaceState, b: RaceState, j: int)
    requires a.Shaped() && b.Shaped() && |a.positions| == |b.positions| && 0 <= j < |a.positions|
  {
    a.positions[j] == b.positions[j] && a.speed[j] == b.speed[j] && a.laps[j] == b.laps[j]
  }

  /** Agreeing on an entity chains through an intermediate state. */
  lemma SameEntityChain(a: RaceState, b: RaceState, c: RaceState, j: int)
    requires a.Shaped() && b.Shaped() && c.Shaped()
    requires |a.positions| == |b.positions| == |c.positions| && 0 <= j < |a.positions|
    requires SameEntity(a, b, j) && SameEntity(b, c, j)
    ensures SameEntity(a, c, j)
  {
  }

  /** Every lap count agrees with the entity's absolute position. */
  ghost predicate LapsConsistent(s: RaceState, L: int, pole: int)
    requires s.Shaped() && L > 0
  {
    forall j :: 0 <= j < |s.positions| ==> s.laps[j] == LapsAt(s.positions[j], L, pole)
  }

  /** One step of the round: entity k is handled iff nobody has won yet. */
  lemma RoundStep(s: RaceState, cfg: Setup, k: int)
    requires cfg.Valid() && s.SpeedsNonNegative() && 0 <= k < |s.positions|
    ensures RoundUpTo(s, cfg, k).win == 0 ==>
      RoundUpTo(s, cfg, k + 1) == EntityTurn(RoundUpTo(s, cfg, k), cfg, k)
    ensures RoundUpTo(s, cfg, k).win != 0 ==> RoundUpTo(s, cfg, k + 1) == RoundUpTo(s, cfg, k)
  {
  }

  /** The turn of entity n leaves every other entity j as it was. */
  lemma TurnTouchesOnlyItsEntity(s: RaceState, cfg: Setup, n: int, j: int)
    requires cfg.Valid() && s.SpeedsNonNegative() && 0 <= n < |s.positions|
    requires 0 <= j < |s.positions| && j != n
    ensures SameEntity(RoundUpTo(s, cfg, n), RoundUpTo(s, cfg, n + 1), j)
  {
    RoundStep(s, cfg, n);
    var t := RoundUpTo(s, cfg, n);
    if t.win == 0 {
      assert SameExcept(t, EntityTurn(t, cfg, n), n);
    }
  }

  /** The turns of entities k .. m - 1 leave every other entity as it was. */
  lemma TurnsTouchOnlyTheirEntity(s: RaceState, cfg: Setup, k: int, m: int, j: int)
    requires cfg.Valid() && s.SpeedsNonNegative() && 0 <= k <= m <= |s.positions|
    requires 0 <= j < |s.positions| && !(k <= j < m)
    ensures SameEntity(RoundUpTo(s, cfg, k), RoundUpTo(s, cfg, m), j)
  {
    var n := k;
    while n < m
      invariant k <= n <= m
      invariant SameEntity(RoundUpTo(s, cfg, k), RoundUpTo(s, cfg, n), j)
    {
      TurnTouchesOnlyItsEntity(s, cfg, n, j);
      SameEntityChain(RoundUpTo(s, cfg, k), RoundUpTo(s, cfg, n), RoundUpTo(s, cfg, n + 1), j);
      n := n + 1;
    }
  }


  /** Each entity's turn starts from its pre-round state, and its result is final. */
  lemma TurnOfEntity(s: RaceState, cfg: Setup, j: int)
    requires cfg.Valid() && s.SpeedsNonNegative() && 0 <= j < |s.positions|
    ensures SameEntity(s, RoundUpTo(s, cfg, j), j)
    ensures SameEntity(RoundUpTo(s, cfg, j + 1), RoundUpTo(s, cfg, |s.positions|), j)
  {
    assert RoundUpTo(s, cfg, 0) == s;
    TurnsTouchOnlyTheirEntity(s, cfg, 0, j, j);
    TurnsTouchOnlyTheirEntity(s, cfg, j + 1, |s.positions|, j);
  }

  /** In a round every entity moves forward by at most its speed. */
  lemma RoundMovesEachEntityForward(s: RaceState, cfg: Setup)
    requires cfg.Valid() && s.SpeedsNonNegative()
    ensures forall j :: 0 <= j < |s.positions| ==>
      s.positions[j] <= Round(s, cfg).positions[j] <= s.positions[j] + s.speed[j]
  {
    var s0 := s.(yellowFlag := 0);
    forall j | 0 <= j < |s.positions|
      ensures s.positions[j] <= Round(s, cfg).positions[j] <= s.positions[j] + s.speed[j]
    {
      TurnOfEntity(s0, cfg, j);
    }
  }

  /** The player moves first with the flag freshly lowered, so when no other
      entity stands on the player's target cell the player makes the full move. */
  lemma PlayerMovesFullyToFreeTarget(s: RaceState, cfg: Setup)
    requires cfg.Valid() && s.SpeedsNonNegative() && s.win == 0 && |s.positions| > 0
    requires !Occupied(s.positions, |cfg.track|, s.positions[0] + s.speed[0], 0)
    ensures Round(s, cfg).positions[0] == s.positions[0] + s.speed[0]
  {
    var s0 := s.(yellowFlag := 0);
    TurnOfEntity(s0, cfg, 0);
    RoundStep(s0, cfg, 0);
  }

  /** An entity handled in the round ends it within [0, maxSpeed]; one skipped
      because somebody had already won keeps its whole state. */
  lemma RoundClampsHandledEntities(s: RaceState, cfg: Setup)
    requires cfg.Valid() && s.SpeedsNonNegative()
    ensures forall j :: 0 <= j < |s.positions| && RoundUpTo(s.(yellowFlag := 0), cfg, j).win == 0 ==>
      0 <= Round(s, cfg).speed[j] <= cfg.maxSpeed
    ensures forall j :: 0 <= j < |s.positions| && RoundUpTo(s.(yellowFlag := 0), cfg, j).win != 0 ==>
      SameEntity(s, Round(s, cfg), j)
  {
    var s0 := s.(yellowFlag := 0);
    forall j | 0 <= j < |s.positions|
      ensures RoundUpTo(s0, cfg, j).win == 0 ==> 0 <= Round(s, cfg).speed[j] <= cfg.maxSpeed
      ensures RoundUpTo(s0, cfg, j).win != 0 ==> SameEntity(s, Round(s, cfg), j)
    {
      TurnOfEntity(s0, cfg, j);
    }
  }

  /** Speeds within the limit before a round are within it after. */
  lemma RoundKeepsSpeedsWithin(s: RaceState, cfg: Setup)
    requires cfg.Valid() && s.SpeedsWithin(cfg.maxSpeed)
    ensures Round(s, cfg).SpeedsWithin(cfg.maxSpeed)
  {
    RoundClampsHandledEntities(s, cfg);
  }

  /** Once somebody has won, the remaining turns of the round change nothing. */
  lemma {:induction false} FrozenOnceWon(s: RaceState, cfg: Setup, k: int, m: int)
    requires cfg.Valid() && s.SpeedsNonNegative() && 0 <= k <= m <= |s.positions|
    requires RoundUpTo(s, cfg, k).win != 0
    ensures RoundUpTo(s, cfg, m) == RoundUpTo(s, cfg, k)
  {
    if m > k {
      FrozenOnceWon(s, cfg, k, m - 1);
    }
  }

  /** Only `findEmptySlot` writes the yellow flag, and only to raise it, so
      a raised flag survives the next entity's turn. */
  lemma TurnKeepsFlag(s: RaceState, cfg: Setup, k: int)
    requires cfg.Valid() && s.SpeedsNonNegative() && 0 <= k < |s.positions|
    requires RoundUpTo(s, cfg, k).yellowFlag != 0
    ensures RoundUpTo(s, cfg, k + 1).yellowFlag != 0
  {
    var t := RoundUpTo(s, cfg, k);
    RoundStep(s, cfg, k);
    if t.win == 0 {
      assert RoundUpTo(s, cfg, k + 1) == EntityTurn(t, cfg, k);
    }
  }

  /** Once raised, the yellow flag stays raised for the rest of the round. */
  lemma FlagStaysRaised(s: RaceState, cfg: Setup, j: int, k: int)
    requires cfg.Valid() && s.SpeedsNonNegative() && 0 <= j <= k <= |s.positions|
    requires RoundUpTo(s, cfg, j).yellowFlag != 0
    ensures RoundUpTo(s, cfg, k).yellowFlag != 0
  {
    var n := j;
    while n < k
      invariant j <= n <= k
      invariant RoundUpTo(s, cfg, n).yellowFlag != 0
    {
      TurnKeepsFlag(s, cfg, n);
      n := n + 1;
    }
  }

  /** Once the turn of entity w has raised the yellow flag, every later entity
      j crawls: over the round it advances at most one cell. */
  lemma CrawlUnderFlag(s: RaceState, cfg: Setup, w: int, j: int)
    requires cfg.Valid() && s.SpeedsNonNegative() && 0 <= w < j < |s.positions|
    requires RoundUpTo(s.(yellowFlag := 0), cfg, w + 1).yellowFlag != 0
    ensures Round(s, cfg).positions[j] <= s.positions[j] + 1
  {
    var s0 := s.(yellowFlag := 0);
    FlagStaysRaised(s0, cfg, w + 1, j);
    TurnOfEntity(s0, cfg, j);
    RoundStep(s0, cfg, j);
  }

  /** Entity w's turn is the one that produced the first win: nobody had won
      before it, afterwards the counter is 1, w is the winner and its laps
      reached the race length. */
  ghost predicate WonOnTurn(s: RaceState, cfg: Setup, w: int)
    requires cfg.Valid() && s.SpeedsNonNegative() && 0 <= w < |s.positions|
  {
    var after := RoundUpTo(s, cfg, w + 1);
    RoundUpTo(s, cfg, w).win == 0 && after.win == 1
    && after.winner == PLAYERS[w] && after.laps[w] >= cfg.raceLaps
  }

  /** From a state without a winner, the win counter stays 0 or becomes 1, and
      it becomes 1 exactly through the first entity w whose turn reaches the
      race length; w is the winner and nothing changes after its turn. */
  lemma {:induction false} FirstFinisherWins(s: RaceState, cfg: Setup, k: int)
    requires cfg.Valid() && s.SpeedsNonNegative() && s.win == 0 && 0 <= k <= |s.positions|
    ensures RoundUpTo(s, cfg, k).win == 0 || RoundUpTo(s, cfg, k).win == 1
    ensures RoundUpTo(s, cfg, k).win == 1 ==>
      exists w :: 0 <= w < k && WonOnTurn(s, cfg, w) && RoundUpTo(s, cfg, k) == RoundUpTo(s, cfg, w + 1)
  {
    if k > 0 {
      FirstFinisherWins(s, cfg, k - 1);
      RoundStep(s, cfg, k - 1);
      var t := RoundUpTo(s, cfg, k - 1);
      var u := RoundUpTo(s, cfg, k);
      if t.win == 1 {
        var w :| 0 <= w < k - 1 && WonOnTurn(s, cfg, w) && t == RoundUpTo(s, cfg, w + 1);
        assert u == RoundUpTo(s, cfg, w + 1);
      } else {
        assert t.win == 0 && u == EntityTurn(t, cfg, k - 1);
        if u.win == 1 {
          assert WonOnTurn(s, cfg, k - 1);
        }
      }
    }
  }

  /** Entities after the one whose turn produced a win are never handled. */
  lemma AfterWinnerUntouched(s: RaceState, cfg: Setup, w: int, j: int)
    requires cfg.Valid() && s.SpeedsNonNegative() && 0 <= w < j < |s.positions|
    requires RoundUpTo(s, cfg, w + 1).win != 0
    ensures SameEntity(s, RoundUpTo(s, cfg, |s.positions|), j)
  {
    TurnOfEntity(s, cfg, j);
    FrozenOnceWon(s, cfg, w + 1, j);
    FrozenOnceWon(s, cfg, w + 1, |s.positions|);
  }

  /** No entity after the one whose turn produced a win is handled. */
  lemma AllAfterWinnerUntouched(s: RaceState, cfg: Setup, w: int)
    requires cfg.Valid() && s.SpeedsNonNegative() && 0 <= w < |s.positions|
    requires RoundUpTo(s, cfg, w + 1).win != 0
    ensures forall j :: w < j < |s.positions| ==> SameEntity(s, RoundUpTo(s, cfg, |s.positions|), j)
  {
    forall j | w < j < |s.positions| ensures SameEntity(s, RoundUpTo(s, cfg, |s.positions|), j) {
      AfterWinnerUntouched(s, cfg, w, j);
    }
  }

  /** A round started without a winner ends with at most one; if it has one,
      that entity reached the race length and every entity after it in the
      order kept its pre-round state. */
  lemma RoundHasAtMostOneWinner(s: RaceState, cfg: Setup)
    requires cfg.Valid() && s.SpeedsNonNegative() && s.win == 0
    ensures Round(s, cfg).win == 0 || Round(s, cfg).win == 1
    ensures Round(s, cfg).win == 1 ==>
      var w := PlayerIndex(Round(s, cfg).winner, |s.positions|);
      0 <= w < |s.positions| && Round(s, cfg).laps[w] >= cfg.raceLaps
      && forall j :: w < j < |s.positions| ==> SameEntity(s, Round(s, cfg), j)
  {
    var s0 := s.(yellowFlag := 0);
    var N := |s.positions|;
    var r := RoundUpTo(s0, cfg, N);
    assert Round(s, cfg) == r;
    FirstFinisherWins(s0, cfg, N);
    if r.win == 1 {
      var w :| 0 <= w < N && WonOnTurn(s0, cfg, w) && r == RoundUpTo(s0, cfg, w + 1);
      PlayerIndexOfSymbol(w, N);
      assert r.winner == PLAYERS[w] && r.laps[w] >= cfg.raceLaps;
      AllAfterWinnerUntouched(s0, cfg, w);
      forall j | w < j < N ensures SameEntity(s, r, j) {
        assert SameEntity(s0, r, j);
      }
    }
  }


  /** With lap counts that agree with positions, a round keeps them in
      agreement and never decreases any of them. */
  lemma RoundLapsNonDecreasing(s: RaceState, cfg: Setup)
    requires cfg.Valid() && s.SpeedsNonNegative() && LapsConsistent(s, |cfg.track|, cfg.pole)
    ensures LapsConsistent(Round(s, cfg), |cfg.track|, cfg.pole)
    ensures forall j :: 0 <= j < |s.positions| ==> s.laps[j] <= Round(s, cfg).laps[j]
  {
    var s0 := s.(yellowFlag := 0);
    var r := Round(s, cfg);
    var L := |cfg.track|;
    forall j | 0 <= j < |s.positions|
      ensures r.laps[j] == LapsAt(r.positions[j], L, cfg.pole) && s.laps[j] <= r.laps[j]
    {
      EntityLapsAfterRound(s0, cfg, j);
    }
  }

  /** One entity's lap count after the round: recomputed from its new
      position if it was handled, its consistent old count if it was not. */
  lemma EntityLapsAfterRound(s: RaceState, cfg: Setup, j: int)
    requires cfg.Valid() && s.SpeedsNonNegative() && 0 <= j < |s.positions|
    requires s.laps[j] == LapsAt(s.positions[j], |cfg.track|, cfg.pole)
    ensures var r := RoundUpTo(s, cfg, |s.positions|);
      r.laps[j] == LapsAt(r.positions[j], |cfg.track|, cfg.pole) && s.laps[j] <= r.laps[j]
  {
    TurnOfEntity(s, cfg, j);
    var L := |cfg.track|;
    var b := RoundUpTo(s, cfg, j);
    var a := RoundUpTo(s, cfg, j + 1);
    var r := RoundUpTo(s, cfg, |s.positions|);
    RoundStep(s, cfg, j);
    assert r.positions[j] == a.positions[j] && r.laps[j] == a.laps[j];
    assert b.positions[j] == s.positions[j] && b.laps[j] == s.laps[j];
    if b.win == 0 {
      assert a.laps[j] == LapsAt(a.positions[j], L, cfg.pole) && b.positions[j] <= a.positions[j];
      LapsAtMonotone(b.positions[j], a.positions[j], L, cfg.pole);
      assert s.laps[j] <= a.laps[j];
    } else {
      assert a == b;
    }
  }

  /** Lap counts never decrease as an entity moves forward. */
  lemma LapsAtMonotone(p: int, q: int, L: int, pole: int)
    requires L > 0 && p <= q
    ensures LapsAt(p, L, pole) <= LapsAt(q, L, pole)
  {
    DivMonotone(p - (pole + 1), q - (pole + 1), L);
  }

  /** After `accel` every entity's speed is within [0, maxSpeed]: the command
      clamps all speeds before the round when it runs one, and changes nothing
      once the race is over. */
  lemma AccelerateKeepsSpeedsWithin(s: RaceState, cfg: Setup, val: int)
    requires cfg.Valid() && s.Shaped() && (s.win == 0 || s.SpeedsWithin(cfg.maxSpeed))
    ensures Accelerate(s, cfg, val).SpeedsWithin(cfg.maxSpeed)
  {
    if s.win == 0 {
      var t := UpdateOpponents(PlayerAccel(s, val, cfg.maxSpeed), cfg.track, cfg.maxSpeed);
      assert t.SpeedsWithin(cfg.maxSpeed);
      RoundKeepsSpeedsWithin(t, cfg);
    }
  }

  /** Across `accel` no entity moves backward and no lap count decreases. */
  lemma AccelerateNeverGoesBack(s: RaceState, cfg: Setup, val: int)
    requires cfg.Valid() && s.Shaped() && LapsConsistent(s, |cfg.track|, cfg.pole)
    ensures LapsConsistent(Accelerate(s, cfg, val), |cfg.track|, cfg.pole)
    ensures forall j :: 0 <= j < |s.positions| ==>
      s.positions[j] <= Accelerate(s, cfg, val).positions[j] && s.laps[j] <= Accelerate(s, cfg, val).laps[j]
  {
    if s.win == 0 {
      var t := UpdateOpponents(PlayerAccel(s, val, cfg.maxSpeed), cfg.track, cfg.maxSpeed);
      assert t.SpeedsNonNegative();
      RoundMovesEachEntityForward(t, cfg);
      RoundLapsNonDecreasing(t, cfg);
    }
  }

  /** On the grid (entity i at pole - i) every lap count is 0 as long as the
      grid is shorter than the track: Java truncates -(i + 1) / L to 0, where
      a Euclidean quotient would be -1. */
  lemma GridLapsAreZero(L: int, pole: int, n: int)
    requires L > 0 && 0 <= n && n + 1 < L
    ensures forall p :: pole - n <= p <= pole ==>
      LapsAt(p, L, pole) == 0 && (p - (pole + 1)) / L == -1
  {
    forall p | pole - n <= p <= pole
      ensures LapsAt(p, L, pole) == 0 && (p - (pole + 1)) / L == -1
    {
      SmallQuotientIsZero(p - (pole + 1), L);
    }
  }

  /** Where `findEmptySlot` puts an entity aiming `move` cells ahead, no other
      entity stands; the one exception is the fallback, where every cell from
      the target back to the entity's own was taken and it stayed put. */
  lemma LandedCellIsFree(positions: seq<int>, L: int, i: int, slot: int, move: int)
    requires L > 0 && 0 <= i < |positions| && move >= 0 && slot == positions[i] + move
    ensures var r := Landing(positions, L, i, slot, move);
      !Occupied(positions, L, r, i)
      || (r == positions[i] && forall k :: 0 <= k <= move ==> !FreeBehind(positions, L, i, slot, k))
  {
    var r := Landing(positions, L, i, slot, move);
    if !Occupied(positions, L, slot, i) {
      assert r == slot;
    } else {
      LandingOnOccupied(positions, L, i, slot, move);
      if exists m :: 1 <= m <= move && FreeBehind(positions, L, i, slot, m) && r == positions[i] + move - m {
        var m :| 1 <= m <= move && FreeBehind(positions, L, i, slot, m) && r == positions[i] + move - m;
        assert r == slot - m;
      } else {
        assert r == positions[i];
        assert !FreeBehind(positions, L, i, slot, 0);
      }
    }
  }
}

/** A worked round: a lone player on "S+--!" with maximum speed 3, one lap to
    race and pole 4. `accel 1` raises the initial speed 1 to 2, the player
    moves from 4 to 6 (cell 1, a boost, so the speed becomes 3) and has
    completed no lap. */
module RoundExample {
  import opened Rules

  lemma LonePlayerFirstRound()
    ensures var s := RaceState([4], seq(10, _ => 1), [0], '0', 0, 0);
      var r := Accelerate(s, Setup("S+--!", 3, 1, 4), 1);
      r.positions == [6] && r.speed[0] == 3 && r.laps == [0] && r.win == 0
  {
    var s := RaceState([4], seq(10, _ => 1), [0], '0', 0, 0);
    var cfg := Setup("S+--!", 3, 1, 4);
    var t := UpdateOpponents(PlayerAccel(s, 1, 3), cfg.track, 3);
    assert t.speed[0] == 2 && t.positions == [4];
    assert !Occupied(t.positions, 5, 6, 0);
    var m := Move(t, 5, 0);
    assert m.positions == [6];
  }
}

=== FILE: rules.dfy ===
/** The round-resolution rules as functions on values. Most functions here
    are the effect of one method of the simulator on the race state, and the
    rest (cells ahead, the backward search, lap arithmetic, the drawing) are
    the pieces those effects are built from; the class in RaceEngine is
    proved to have exactly these effects, and RoundFacts proves what they
    promise over a whole round. */
module Rules {
  import opened JavaInt
  import opened Track

  /** The configuration a round runs under, fixed once the race is set up. */
  datatype Setup = Setup(track: seq<char>, maxSpeed: int, raceLaps: int, pole: int)
  {
    ghost predicate Valid() {
      |track| > 0 && maxSpeed >= 0
    }
  }

  /** The race state: absolute positions, speeds (a table of ten, one slot per
      symbol) and lap counts per entity, the winner's symbol, the win counter
      and the yellow flag. */
  datatype RaceState = RaceState(
    positions: seq<int>,
    speed: seq<int>,
    laps: seq<int>,
    winner: char,
    win: int,
    yellowFlag: int)
  {
    /** Entities are 0 .. |positions| - 1, at most one per symbol, and every
        absolute position is non-negative, so Java's `%` agrees with Dafny's. */
    ghost predicate Shaped() {
      1 <= |positions| <= |PLAYERS| && |laps| == |positions| && |speed| == |PLAYERS|
      && forall j :: 0 <= j < |positions| ==> positions[j] >= 0
    }

    ghost predicate SpeedsNonNegative() {
      Shaped() && forall j :: 0 <= j < |positions| ==> speed[j] >= 0
    }

    ghost predicate SpeedsWithin(maxSpeed: int) {
      Shaped() && forall j :: 0 <= j < |positions| ==> 0 <= speed[j] <= maxSpeed
    }
  }

  /** Entities other than `i` keep their position, speed and lap count. */
  ghost predicate SameExcept(s: RaceState, r: RaceState, i: int)
    requires s.Shaped() && r.Shaped() && |r.positions| == |s.positions|
  {
    forall j :: 0 <= j < |s.positions| && j != i ==>
      r.positions[j] == s.positions[j] && r.speed[j] == s.speed[j] && r.laps[j] == s.laps[j]
  }

  // ---------------------------------------------------------------- speed

  /** pControlSpeed's bound: below zero gives zero, above the maximum gives the maximum. */
  function PlayerClamp(v: int, maxSpeed: int): (r: int)
    ensures maxSpeed >= 0 ==> 0 <= r <= maxSpeed
    ensures 0 <= v <= maxSpeed ==> r == v
  {
    if v < 0 then 0 else if v > maxSpeed then maxSpeed else v
  }

  /** oppControlSpeed's bound tests the maximum first; for a non-negative
      maximum it agrees with the player's. */
  function OppClamp(v: int, maxSpeed: int): (r: int)
    ensures maxSpeed >= 0 ==> r == PlayerClamp(v, maxSpeed)
    ensures maxSpeed >= 0 ==> 0 <= r <= maxSpeed
    ensures 0 <= v <= maxSpeed ==> r == v
  {
    if v > maxSpeed then maxSpeed else if v < 0 then 0 else v
  }

  function Abs(x: int): int {
    if x < 0 then -x else x
  }

  /** The clamped speed is the speed in [0, maxSpeed] nearest to the requested
      one, and clamping twice is clamping once. */
  lemma ClampIsNearest(v: int, maxSpeed: int, w: int)
    requires 0 <= w <= maxSpeed
    ensures Abs(OppClamp(v, maxSpeed) - v) <= Abs(w - v)
    ensures OppClamp(OppClamp(v, maxSpeed), maxSpeed) == OppClamp(v, maxSpeed)
  {
  }

  /** The human player's speed after `pControlSpeed(maxSpeed, val)`: the
      32-bit sum of the speed and `val`, clamped to [0, maxSpeed]. */
  function PlayerAccel(s: RaceState, val: int, maxSpeed: int): (r: RaceState)
    requires s.Shaped()
    ensures r.Shaped() && r.positions == s.positions && SameExcept(s, r, 0)
    ensures r.laps == s.laps && r.win == s.win && r.winner == s.winner && r.yellowFlag == s.yellowFlag
    ensures maxSpeed >= 0 ==> 0 <= r.speed[0] <= maxSpeed
    ensures 0 <= s.speed[0] + val <= maxSpeed <= INT_MAX ==> r.speed[0] == s.speed[0] + val
    ensures Wrap32(s.speed[0] + val) < 0 ==> r.speed[0] == 0
    ensures maxSpeed >= 0 && Wrap32(s.speed[0] + val) > maxSpeed ==> r.speed[0] == maxSpeed
  {
    s.(speed := s.speed[0 := PlayerClamp(Wrap32(s.speed[0] + val), maxSpeed)])
  }

  /** An acceleration so large that the 32-bit sum wraps below zero stops the
      player instead of sending them to top speed. */
  lemma HugeAccelStops(s: RaceState, maxSpeed: int)
    requires s.Shaped() && s.speed[0] == 1 && maxSpeed >= 0
    ensures PlayerAccel(s, INT_MAX, maxSpeed).speed[0] == 0
  {
    assert Wrap32(s.speed[0] + INT_MAX) == INT_MIN;
  }

  /** The cell `d` places ahead of absolute position `pos`. */
  function CellAhead(track: seq<char>, pos: int, d: int): char
    requires |track| > 0 && pos >= 0 && d >= 0
  {
    track[Rem(pos + d, |track|)]
  }

  /** A cell holding `c` lies one to three places ahead of `pos`. */
  predicate SeenAhead(track: seq<char>, pos: int, c: char)
    requires |track| > 0 && pos >= 0
  {
    exists d :: 1 <= d <= 3 && CellAhead(track, pos, d) == c
  }

  /** The opponents' heuristic: accelerate toward a boost while below the
      maximum, otherwise brake before oil while moving, otherwise keep speed. */
  function AiChoice(track: seq<char>, pos: int, sp: int, maxSpeed: int): (r: int)
    requires |track| > 0 && pos >= 0
    ensures -1 <= r <= 1
    ensures 0 <= sp <= maxSpeed ==> 0 <= sp + r <= maxSpeed
  {
    if SeenAhead(track, pos, BOOST) && sp < maxSpeed then 1
    else if SeenAhead(track, pos, OIL) && sp > 0 then -1
    else 0
  }

  /** The speed opponent `j` has after `updateOpponentSpeed`. */
  function OpponentSpeed(s: RaceState, track: seq<char>, maxSpeed: int, j: int): int
    requires |track| > 0 && s.Shaped() && 0 <= j < |s.positions|
  {
    OppClamp(s.speed[j] + AiChoice(track, s.positions[j], s.speed[j], maxSpeed), maxSpeed)
  }

  /** `updateOpponentSpeed`: every opponent 1 .. N applies its own choice and
      is clamped; the player's speed and the unused slots are untouched. */
  function UpdateOpponents(s: RaceState, track: seq<char>, maxSpeed: int): (r: RaceState)
    requires |track| > 0 && s.Shaped()
    ensures r.Shaped() && r.positions == s.positions && r.laps == s.laps
    ensures r.win == s.win && r.winner == s.winner && r.yellowFlag == s.yellowFlag
    ensures r.speed[0] == s.speed[0]
    ensures forall j :: 1 <= j < |s.positions| ==> r.speed[j] == OpponentSpeed(s, track, maxSpeed, j)
    ensures maxSpeed >= 0 ==> forall j :: 1 <= j < |s.positions| ==> 0 <= r.speed[j] <= maxSpeed
  {
    s.(speed := seq(|s.speed|, j requires 0 <= j < |s.speed| =>
      if 1 <= j < |s.positions| then OpponentSpeed(s, track, maxSpeed, j) else s.speed[j]))
  }

  // ------------------------------------------------------------ collisions

  /** `checkPosStatus`: some entity other than `p` stands on the cell `slot`
      denotes (Java's remainder on both sides). */
  predicate Occupied(positions: seq<int>, L: int, slot: int, p: int)
    requires L > 0
  {
    exists j :: 0 <= j < |positions| && j != p && Rem(positions[j], L) == Rem(slot, L)
  }

  /** The cell `n` places behind the target `slot` is free for entity `i`. */
  predicate FreeBehind(positions: seq<int>, L: int, i: int, slot: int, n: int)
    requires L > 0
  {
    !Occupied(positions, L, slot - n, i)
  }

  /** The backward search of `findEmptySlot` from offset `n` on: the first free
      offset m in n .. move moves the entity by `move - m`; when there is none
      the entity stays where it is. */
  function BackSearch(positions: seq<int>, L: int, i: int, slot: int, move: int, n: int): (r: int)
    requires L > 0 && 0 <= i < |positions| && 1 <= n <= move + 1
    ensures n <= move ==> positions[i] <= r <= positions[i] + move - n
    ensures n > move ==> r == positions[i]
    decreases move + 1 - n
  {
    if n > move then positions[i]
    else if FreeBehind(positions, L, i, slot, n) then positions[i] + move - n
    else BackSearch(positions, L, i, slot, move, n + 1)
  }

  /** The backward search stops at the least free offset from `n` on, and
      leaves the entity in place when no offset up to `move` is free. */
  lemma {:induction false} BackSearchFindsLeastFree(positions: seq<int>, L: int, i: int, slot: int, move: int, n: int)
    requires L > 0 && 0 <= i < |positions| && 1 <= n <= move + 1
    ensures var r := BackSearch(positions, L, i, slot, move, n);
      (exists m :: n <= m <= move && FreeBehind(positions, L, i, slot, m)
         && (forall k :: n <= k < m ==> !FreeBehind(positions, L, i, slot, k))
         && r == positions[i] + move - m)
      || ((forall k :: n <= k <= move ==> !FreeBehind(positions, L, i, slot, k))
         && r == positions[i])
    decreases move + 1 - n
  {
    if n <= move && !FreeBehind(positions, L, i, slot, n) {
      BackSearchFindsLeastFree(positions, L, i, slot, move, n + 1);
    }
  }

  /** One step of the backward search: stop at a free offset, else go on. */
  lemma BackSearchStep(positions: seq<int>, L: int, i: int, slot: int, move: int, n: int)
    requires L > 0 && 0 <= i < |positions| && 1 <= n <= move
    ensures FreeBehind(positions, L, i, slot, n) ==>
      BackSearch(positions, L, i, slot, move, n) == positions[i] + move - n
    ensures !FreeBehind(positions, L, i, slot, n) ==>
      BackSearch(positions, L, i, slot, move, n) == BackSearch(positions, L, i, slot, move, n + 1)
  {
  }

  /** Where `findEmptySlot(i, slot, move)` leaves entity `i`: `move` ahead if
      the target is free, else behind it by the least free offset, else put. */
  function Landing(positions: seq<int>, L: int, i: int, slot: int, move: int): (r: int)
    requires L > 0 && 0 <= i < |positions| && move >= 0
    ensures positions[i] <= r <= positions[i] + move
    ensures !Occupied(positions, L, slot, i) ==> r == positions[i] + move
  {
    if !Occupied(positions, L, slot, i) then positions[i] + move
    else BackSearch(positions, L, i, slot, move, 1)
  }

  /** On an occupied target the entity lands behind it at the least free
      offset, or stays in place when every offset up to `move` is taken. */
  lemma LandingOnOccupied(positions: seq<int>, L: int, i: int, slot: int, move: int)
    requires L > 0 && 0 <= i < |positions| && move >= 0 && Occupied(positions, L, slot, i)
    ensures var r := Landing(positions, L, i, slot, move);
      (exists m :: 1 <= m <= move && FreeBehind(positions, L, i, slot, m)
         && (forall k :: 1 <= k < m ==> !FreeBehind(positions, L, i, slot, k))
         && r == positions[i] + move - m)
      || ((forall k :: 1 <= k <= move ==> !FreeBehind(positions, L, i, slot, k))
         && r == positions[i])
  {
    BackSearchFindsLeastFree(positions, L, i, slot, move, 1);
  }

  /** `findEmptySlot`: only entity `i`'s position and the yellow flag change;
      the flag is raised exactly when the target cell was occupied. */
  function Resolve(s: RaceState, L: int, i: int, slot: int, move: int): (r: RaceState)
    requires L > 0 && s.Shaped() && 0 <= i < |s.positions| && move >= 0
    ensures r.Shaped() && |r.positions| == |s.positions| && SameExcept(s, r, i)
    ensures r.speed == s.speed && r.laps == s.laps && r.win == s.win && r.winner == s.winner
    ensures s.positions[i] <= r.positions[i] <= s.positions[i] + move
    ensures !Occupied(s.positions, L, slot, i) ==> r.positions[i] == s.positions[i] + move
    ensures r.yellowFlag == 1 <==> (Occupied(s.positions, L, slot, i) || s.yellowFlag == 1)
  {
    s.(positions := s.positions[i := Landing(s.positions, L, i, slot, move)],
       yellowFlag := if Occupied(s.positions, L, slot, i) then 1 else s.yellowFlag)
  }

  /** `movePlayers`: a full move while the flag is down; under the flag one
      cell, and only for a moving entity. */
  function Move(s: RaceState, L: int, i: int): (r: RaceState)
    requires L > 0 && s.Shaped() && 0 <= i < |s.positions| && s.speed[i] >= 0
    ensures r.Shaped() && |r.positions| == |s.positions| && SameExcept(s, r, i)
    ensures r.speed == s.speed && r.laps == s.laps && r.win == s.win && r.winner == s.winner
    ensures s.positions[i] <= r.positions[i] <= s.positions[i] + s.speed[i]
    ensures s.yellowFlag != 0 ==> r.positions[i] <= s.positions[i] + 1
    ensures s.yellowFlag != 0 && s.speed[i] == 0 ==> r == s
    // where the entity lands: the full move, or one cell under the flag,
    // on a free target; otherwise as the backward search decides
    ensures s.yellowFlag == 0 && !Occupied(s.positions, L, s.positions[i] + s.speed[i], i) ==>
              r.positions[i] == s.positions[i] + s.speed[i]
    ensures s.yellowFlag != 0 && s.speed[i] > 0 && !Occupied(s.positions, L, s.positions[i] + 1, i) ==>
              r.positions[i] == s.positions[i] + 1
    ensures s.yellowFlag == 0 ==>
              r.positions[i] == Landing(s.positions, L, i, s.positions[i] + s.speed[i], s.speed[i])
    ensures s.yellowFlag != 0 && s.speed[i] > 0 ==>
              r.positions[i] == Landing(s.positions, L, i, s.positions[i] + 1, 1)
    ensures s.yellowFlag == 0 ==> (r.yellowFlag == 1 <==> Occupied(s.positions, L, s.positions[i] + s.speed[i], i))
    ensures s.yellowFlag != 0 ==> r.yellowFlag != 0
  {
    if s.yellowFlag == 0 then Resolve(s, L, i, s.positions[i] + s.speed[i], s.speed[i])
    else if s.speed[i] > 0 then Resolve(s, L, i, s.positions[i] + 1, 1)
    else s
  }

  // --------------------------------------------------- cells, laps, winner

  /** The effect of landing on a cell: boost +1, drag -1 (in Java's 32-bit
      arithmetic), oil stops. */
  function CellEffect(cell: char, sp: int): int {
    if cell == BOOST then Wrap32(sp + 1)
    else if cell == DRAG then Wrap32(sp - 1)
    else if cell == OIL then 0
    else sp
  }

  /** `checkNewPositions`. */
  function ApplyCell(s: RaceState, track: seq<char>, i: int): (r: RaceState)
    requires |track| > 0 && s.Shaped() && 0 <= i < |s.positions|
  {
    s.(speed := s.speed[i := CellEffect(track[Rem(s.positions[i], |track|)], s.speed[i])])
  }

  /** `oppControlSpeed(i, maxSpeed)`. */
  function ClampSpeed(s: RaceState, i: int, maxSpeed: int): (r: RaceState)
    requires s.Shaped() && 0 <= i < |s.positions|
  {
    s.(speed := s.speed[i := OppClamp(s.speed[i], maxSpeed)])
  }

  /** `checkWinner`. */
  function CheckWinner(s: RaceState, i: int, raceLaps: int): (r: RaceState)
    requires s.Shaped() && 0 <= i < |s.positions|
  {
    if s.laps[i] >= raceLaps then s.(win := s.win + 1, winner := PLAYERS[i]) else s
  }

  /** Laps completed from an absolute position: Java's truncating quotient of
      the distance past the start cell by the track length. */
  function LapsAt(position: int, L: int, pole: int): int
    requires L > 0
  {
    Div(position - (pole + 1), L)
  }

  /** `checkLapsComplete`: recompute entity `i`'s laps, then `checkWinner`. */
  function CountLaps(s: RaceState, L: int, i: int, raceLaps: int, pole: int): (r: RaceState)
    requires L > 0 && s.Shaped() && 0 <= i < |s.positions|
  {
    CheckWinner(s.(laps := s.laps[i := LapsAt(s.positions[i], L, pole)]), i, raceLaps)
  }

  // ----------------------------------------------------------------- round

  /** One entity's turn in `processRound`: move, cell effect, clamp, laps. */
  function EntityTurn(s: RaceState, cfg: Setup, i: int): (r: RaceState)
    requires cfg.Valid() && s.Shaped() && 0 <= i < |s.positions| && s.speed[i] >= 0
    ensures r.Shaped() && |r.positions| == |s.positions| && SameExcept(s, r, i)
    ensures 0 <= r.speed[i] <= cfg.maxSpeed
    ensures s.positions[i] <= r.positions[i] <= s.positions[i] + s.speed[i]
    ensures s.yellowFlag == 0 && !Occupied(s.positions, |cfg.track|, s.positions[i] + s.speed[i], i) ==>
              r.positions[i] == s.positions[i] + s.speed[i]
    ensures s.yellowFlag != 0 ==> r.yellowFlag != 0 && r.positions[i] <= s.positions[i] + 1
    ensures r.laps[i] == LapsAt(r.positions[i], |cfg.track|, cfg.pole)
    ensures r.laps[i] >= cfg.raceLaps ==> r.win == s.win + 1 && r.winner == PLAYERS[i]
    ensures r.laps[i] < cfg.raceLaps ==> r.win == s.win && r.winner == s.winner
  {
    var L := |cfg.track|;
    CountLaps(ClampSpeed(ApplyCell(Move(s, L, i), cfg.track, i), i, cfg.maxSpeed), L, i, cfg.raceLaps, cfg.pole)
  }

  /** The state after the loop of `processRound` has handled entities
      0 .. k - 1: an entity is handled only while nobody has won. */
  function RoundUpTo(s: RaceState, cfg: Setup, k: int): (r: RaceState)
    requires cfg.Valid() && s.SpeedsNonNegative() && 0 <= k <= |s.positions|
    ensures r.SpeedsNonNegative() && |r.positions| == |s.positions|
    decreases k
  {
    if k == 0 then s
    else
      var t := RoundUpTo(s, cfg, k - 1);
      if t.win == 0 then EntityTurn(t, cfg, k - 1) else t
  }

  /** `processRound`: lower the flag, then handle every entity in order. */
  function Round(s: RaceState, cfg: Setup): (r: RaceState)
    requires cfg.Valid() && s.SpeedsNonNegative()
    ensures r.SpeedsNonNegative() && |r.positions| == |s.positions|
  {
    RoundUpTo(s.(yellowFlag := 0), cfg, |s.positions|)
  }

  /** The state effect of the `accel` command: nothing once the race has a
      winner, else the player's and the opponents' speed changes and a round. */
  function Accelerate(s: RaceState, cfg: Setup, val: int): (r: RaceState)
    requires cfg.Valid() && s.Shaped()
    ensures r.Shaped() && |r.positions| == |s.positions|
    ensures s.win != 0 ==> r == s
  {
    if s.win != 0 then s
    else
      var t := UpdateOpponents(PlayerAccel(s, val, cfg.maxSpeed), cfg.track, cfg.maxSpeed);
      assert t.SpeedsNonNegative();
      Round(t, cfg)
  }

  // --------------------------------------------------------------- display

  /** The character `show` prints for cell `c` once entities 0 .. k - 1 have
      been drawn over the track, each over the ones before it. */
  function Painted(track: seq<char>, positions: seq<int>, k: int, c: int): char
    requires |track| > 0 && 0 <= c < |track| && 0 <= k <= |positions| && k <= |PLAYERS|
    requires forall j :: 0 <= j < |positions| ==> positions[j] >= 0
  {
    if k == 0 then track[c]
    else if Rem(positions[k - 1], |track|) == c then PLAYERS[k - 1]
    else Painted(track, positions, k - 1, c)
  }

  /** A cell shows the symbol of the highest-numbered entity standing on it,
      or the track's own symbol when nobody does. */
  lemma {:induction false} PaintedIsLastOccupant(track: seq<char>, positions: seq<int>, k: int, c: int)
    requires |track| > 0 && 0 <= c < |track| && 0 <= k <= |positions| && k <= |PLAYERS|
    requires forall j :: 0 <= j < |positions| ==> positions[j] >= 0
    ensures (exists j :: 0 <= j < k && Rem(positions[j], |track|) == c
               && Painted(track, positions, k, c) == PLAYERS[j]
               && forall m :: j < m < k ==> Rem(positions[m], |track|) != c)
         || ((forall j :: 0 <= j < k ==> Rem(positions[j], |track|) != c)
               && Painted(track, positions, k, c) == track[c])
  {
    if k > 0 && Rem(positions[k - 1], |track|) != c {
      PaintedIsLastOccupant(track, positions, k - 1, c);
    }
  }

  // ---------------------------------------------------------------- report

  /** What a command reports, without its wording. */
  datatype Message =
    | RaceEnded(symbol: char)
    | Won(symbol: char)
    | Position(symbol: char, cell: int, laps: int)
    | NotFound(symbol: char)

  /** `status` as written: the symbol is compared with `winner` before anyone
      has won, while `winner` still holds its initial '0'. */
  function StatusAsWritten(s: RaceState, L: int, id: char): (m: Message)
    requires L > 0 && s.Shaped()
    ensures m.RaceEnded? <==> id == s.winner
    ensures m.NotFound? <==> id != s.winner && id !in PLAYERS[..|s.positions|]
    ensures !m.Won? && m.symbol == id
  {
    var k := PlayerIndex(id, |s.positions|);
    if id == s.winner then RaceEnded(id)
    else if k == -1 then NotFound(id)
    else Position(id, Rem(s.positions[k], L), s.laps[k])
  }

  /** `status` as intended: the race-ended report only for the actual winner. */
  function Status(s: RaceState, L: int, id: char): (m: Message)
    requires L > 0 && s.Shaped()
    ensures m.RaceEnded? <==> s.win != 0 && id == s.winner
    ensures m.NotFound? <==> !(s.win != 0 && id == s.winner) && id !in PLAYERS[..|s.positions|]
    ensures m.Position? <==> !(s.win != 0 && id == s.winner) && id in PLAYERS[..|s.positions|]
    ensures m.Position? ==> exists k :: 0 <= k < |s.positions| && PLAYERS[k] == id
                              && m == Position(id, Rem(s.positions[k], L), s.laps[k])
    ensures !m.Won?
    ensures m.symbol == id
  {
    var k := PlayerIndex(id, |s.positions|);
    if s.win != 0 && id == s.winner then RaceEnded(id)
    else if k == -1 then NotFound(id)
    else Position(id, Rem(s.positions[k], L), s.laps[k])
  }

  /** The written and the corrected `status` differ exactly when nobody has
      won yet and the symbol asked about is the initial '0' held in `winner`. */
  lemma StatusAsWrittenDiffersOnlyBeforeAWin(s: RaceState, L: int, id: char)
    requires L > 0 && s.Shaped()
    ensures StatusAsWritten(s, L, id) != Status(s, L, id) <==> s.win == 0 && id == s.winner
  {
  }

  /** Before any winner, `status 0` is answered as written with "0 won the
      race", where the intended answer is that no entity 0 exists. */
  lemma StatusZeroBeforeAnyWinner(s: RaceState, L: int)
    requires L > 0 && s.Shaped() && s.win == 0 && s.winner == '0'
    ensures StatusAsWritten(s, L, '0') == RaceEnded('0')
    ensures Status(s, L, '0') == NotFound('0')
  {
    assert '0' !in PLAYERS[..|s.positions|];
  }
}

=== FILE: track.dfy ===
/** The track layout and the entity alphabet: cell symbols, the pole
    position derived from the first start cell, and the lookup from an
    entity's symbol to its index. */
module Track {
  import opened JavaInt

  const START: char := 'S'
  const BOOST: char := '+'
  const DRAG: char := '-'
  const OIL: char := '!'

  /** Symbols of the entities: the human player at index 0, then the opponents. */
  const PLAYERS: seq<char> := ['P', 'a', 'b', 'c', 'd', 'e', 'f', 'g', 'h', 'i']

  /** Index of the first occurrence of `c` in `s`. */
  function FirstIndex(s: seq<char>, c: char): (k: nat)
    requires c in s
    ensures k < |s| && s[k] == c
    ensures forall j :: 0 <= j < k ==> s[j] != c
  {
    if s[0] == c then 0 else 1 + FirstIndex(s[1..], c)
  }

  /** The pole position: the cell just before the first start cell, shifted
      by one track length so that the grid behind it stays non-negative. */
  method FindPolePos(track: seq<char>) returns (polePos: int)
    requires START in track
    ensures polePos == FirstIndex(track, START) - 1 + |track|
    ensures |track| - 1 <= polePos <= 2 * |track| - 2
    ensures track[Rem(polePos + 1, |track|)] == START
  {
    ghost var k := FirstIndex(track, START);
    polePos := -2;
    var i := 0;
    // The source's do-while: its first test is true, so a while loop is the same.
    while polePos == -2
      invariant 0 <= i <= k + 1
      invariant i <= k ==> polePos == -2
      invariant i == k + 1 ==> polePos == k - 1 + |track|
      decreases k + 1 - i
    {
      if track[i] == START {
        polePos := i - 1 + |track|;
      }
      i := i + 1;
    }
    RemShift(k, |track|);
  }

  /** Java's lookup of `id` among the first `count` symbols: the last index
      holding it, or -1 when none does. */
  function PlayerIndex(id: char, count: nat): (k: int)
    requires count <= |PLAYERS|
    ensures k == -1 <==> id !in PLAYERS[..count]
    ensures k != -1 ==> 0 <= k < count && PLAYERS[k] == id
  {
    if count == 0 then -1
    else if PLAYERS[count - 1] == id then count - 1
    else
      assert PLAYERS[..count] == PLAYERS[..count - 1] + [PLAYERS[count - 1]];
      PlayerIndex(id, count - 1)
  }

  /** The entity symbols are pairwise distinct, so the lookup inverts the alphabet. */
  lemma {:induction false} PlayerIndexOfSymbol(i: nat, count: nat)
    requires i < count <= |PLAYERS|
    ensures PlayerIndex(PLAYERS[i], count) == i
  {
    if i < count - 1 {
      assert PLAYERS[count - 1] != PLAYERS[i];
      PlayerIndexOfSymbol(i, count - 1);
    }
  }

  /** processPlayerID: the index of the entity whose symbol is `playerID`
      among the player and the `numOpponents` opponents, or -1. */
  method ProcessPlayerID(playerID: char, numOpponents: nat) returns (val: int)
    requires numOpponents < |PLAYERS|
    ensures val == PlayerIndex(playerID, numOpponents + 1)
    ensures val == -1 <==> playerID !in PLAYERS[..numOpponents + 1]
    ensures val != -1 ==> 0 <= val <= numOpponents && PLAYERS[val] == playerID
  {
    val := -1;
    for i := 0 to numOpponents + 1
      invariant val == PlayerIndex(playerID, i)
    {
      if playerID == PLAYERS[i] {
        val := i;
      } else {
        assert PLAYERS[..i + 1] == PLAYERS[..i] + [PLAYERS[i]];
      }
    }
  }
}
